=== FILE: README.md ===
# Presentation countdown timer — Dafny model

This project models the core of a presentation-timer widget: the countdown
timer engine behind each of its two panels (the presentation phase and the
Q&A phase), the `MM:SS` display format and progress percentage, the settings
dialog's minutes/seconds conversion, the panel's button wiring, and the
split/full-screen layout toggle.

The engine (`hooks/useTimer.ts`) is a four-state machine — idle, running,
paused, completed — over duration and displayed seconds, a ringtone, a
ringing flag, an absolute end instant in milliseconds and a repeating alarm.
In the model it is an immutable `Timer.Engine` record and every command is a
pure function:

- `Start`, `Pause`, `Reset`, `SetTime`, `Adjust`, `SetRingtone`, `StopAlarm`
  and `PreviewRingtone` are the hook's commands.
- `Tick` is one run of the 200 ms polling callback.
- `AlarmRepeat` is one firing of the alarm's repeat.

The wall clock (`Date.now()`) is the parameter `now`. `Math.ceil((end - now) / 1000)`
on whole milliseconds is `Timer.SecondsUntil`, an integer ceiling division.

Two refs become plain fields:

- `alarm` models `alarmIntervalRef`. It holds the ringtone locked when the alarm
  started and its repeat period: 2000 ms for the bell, 800 ms for the alarm,
  1000 ms for the digital tone.
- `played` logs every tone handed to the audio output, so "plays once",
  "plays the locked tone" and "changes nothing but plays" can be stated.

The JavaScript truthiness test on `endTimeRef.current` is kept. A target of
0 counts as absent, exactly as in the source. For that reason the invariant
`Timer.Valid` includes "a running engine's target is positive", and
preservation needs a positive clock reading. `Date.now()` counts milliseconds
since the epoch, so it is positive.

Modules follow the source files:

- `Wrappers` holds `Option`.
- `TimerTypes` is `types.ts`.
- `Ceil` holds the ceiling division.
- `Timer` and `TimerLemmas` model `hooks/useTimer.ts`.
- `TimeUtil` models `utils/time.ts`.
- `SettingsModal`, `TimerSection` and `AppLayout` model the components and `App.tsx`.

Two behaviours of the code are easy to misread, and the model follows the
code in both:

- `setTime` stores whatever it is given. The one-minute floor for a
  non-positive value is applied by the settings dialog's save handler
  (`SettingsModal.SaveSeconds`), not by the engine.
- The polling step's "update only when the second changes" is a rendering
  optimisation. The stored value is the same either way, so `Tick` always
  stores the recomputed value.

## Model

| member | source | states |
|---|---|---|
| Timer.Init | hooks/useTimer.ts:4-9 | a new engine shows and holds the initial duration, is idle with the bell ringtone, and has no target, no alarm and nothing played |
| Timer.SecondsUntil | hooks/useTimer.ts:137 | the whole seconds until the target are the ceiling of the remaining milliseconds over 1000: the least r with r*1000 ≥ end − now |
| Ceil.CeilDiv | hooks/useTimer.ts:166 | `Math.ceil(a / d)` on whole numbers is the least q with q*d ≥ a, for negative a too |
| Timer.TonePeriod | hooks/useTimer.ts:88 | the alarm repeats every 2000 ms for the bell, 800 ms for the alarm and 1000 ms for the digital tone |
| Timer.StartAlarm | hooks/useTimer.ts:79-98 | with a silent ringtone nothing changes; otherwise the engine rings, plays the ringtone once and arms a repeat locked to that ringtone with its period; the countdown fields are untouched |
| Timer.StopAlarm | hooks/useTimer.ts:100-106 | ringing stops and the armed repeat is cancelled; nothing else changes |
| Timer.AlarmRepeat | hooks/useTimer.ts:95-97 | a firing of the armed repeat plays the locked tone and changes nothing else |
| Timer.PreviewRingtone | hooks/useTimer.ts:232-235 | a preview plays one tone of the given type (none for silent) and leaves all engine state unchanged |
| Timer.SetRingtone | hooks/useTimer.ts:8 | the ringtone setting changes and nothing else, an armed alarm included |
| Timer.Complete | hooks/useTimer.ts:209-213 | entering completed shows zero and drops the target; with a non-silent ringtone it rings, plays that tone once at once and arms a repeat locked to it with its period; with the silent one no tone is played and no repeat is armed |
| Timer.Start | hooks/useTimer.ts:108-126 | a ringing alarm is stopped first; a running engine keeps its countdown; otherwise an exhausted display is reloaded from the duration, the target becomes now + display*1000 and the engine runs |
| Timer.Pause | hooks/useTimer.ts:128-141 | no-op unless running; otherwise paused, silent, and a truthy target is cleared and the display captures max(0, ceil((target − now)/1000)); a falsy target and the display are left as they were |
| Timer.Reset | hooks/useTimer.ts:143-149 | any state goes to idle with display = duration, no target and no alarm |
| Timer.SetTime | hooks/useTimer.ts:151-157 | duration and display both become the new value, idle, no target, no alarm |
| Timer.Adjust | hooks/useTimer.ts:159-184 | duration moves by the delta floored at 0 in every state; a stopped engine moves its display likewise; a running one shifts its target by delta*1000 and completes at once iff the recomputed seconds are ≤ 0 |
| Timer.Tick | hooks/useTimer.ts:189-215 | a poll changes nothing unless running with a target; then the display is max(0, recomputed seconds) and the engine completes iff those are ≤ 0 |
| TimerLemmas.InitValid | hooks/useTimer.ts:4-9 | a new engine with duration d ≥ 0 is valid, idle, silent and shows d |
| TimerLemmas.CompleteValid | hooks/useTimer.ts:169-173 | completing a running engine keeps the invariant |
| TimerLemmas.AdjustValid | hooks/useTimer.ts:160-183 | adjusting keeps the invariant, and an engine still running afterwards has its target strictly after the clock reading |
| TimerLemmas.StepValid | hooks/useTimer.ts:108-235 | every command and poll keeps: target present iff running, ringing ⇒ completed, alarm armed iff ringing, display and duration ≥ 0 |
| TimerLemmas.RunValid | hooks/useTimer.ts:108-235 | any sequence of commands at positive clock readings, with non-negative setTime arguments, keeps the invariant |
| TimerLemmas.TickOnlyReadsTarget | hooks/useTimer.ts:192-194 | two running engines with the same target poll to the same display and status, whatever their history |
| TimerLemmas.TickCompletesIff | hooks/useTimer.ts:192-214 | a poll completes exactly when the clock has reached the target; a completed poll shows 0, clears the target and rings iff the ringtone is not silent, playing that tone once and arming its locked repeat (no tone for silent); otherwise the engine keeps running toward the same target |
| TimerLemmas.TickMonotone | hooks/useTimer.ts:192-206 | a later poll never shows more seconds than an earlier one |
| TimerLemmas.TickTwice | hooks/useTimer.ts:189-215 | polling at t1 and then at t2 ≥ t1 equals polling at t2 alone |
| TimerLemmas.PollsCollapse | hooks/useTimer.ts:187-216 | any number of polls at non-decreasing readings leave the state one poll at the last reading would |
| TimerLemmas.StartThenPause | hooks/useTimer.ts:108-141 | start then pause at the same instant leaves a non-zero display unchanged (an exhausted one becomes the duration), paused and silent |
| TimerLemmas.StartedCountdownCompletes | hooks/useTimer.ts:124 | started with n > 0 seconds, the poll n seconds later completes, shows 0 and rings unless silent |
| TimerLemmas.StartedCountdownNotEarly | hooks/useTimer.ts:192-206 | one millisecond before that the engine still runs and shows 1 |
| TimerLemmas.StartWhileRunning | hooks/useTimer.ts:112-113 | start on a running engine changes nothing |
| TimerLemmas.AdjustPastZeroCompletes | hooks/useTimer.ts:160-176 | right after start, adjusting by at least the display forces completion with 0 shown, no target, ringing unless silent |
| TimerLemmas.AdjustStopped | hooks/useTimer.ts:177-183 | on a stopped engine adjust moves display and duration by the delta, each floored at 0, and nothing else |
| TimerLemmas.ResetValid | hooks/useTimer.ts:143-149 | reset from any state with duration ≥ 0 gives a valid idle silent engine showing its duration |
| TimerLemmas.SetTimeThenReset | hooks/useTimer.ts:143-157 | setTime(n) then reset equals setTime(n) |
| TimerLemmas.StopAlarmIdempotent | hooks/useTimer.ts:100-106 | stopping the alarm twice equals stopping it once |
| TimerLemmas.AlarmToneLocked | hooks/useTimer.ts:92-97 | after a ringtone change mid-ring the repeat still plays the tone locked at alarm start |
| TimerLemmas.SilentNeverRings | hooks/useTimer.ts:79-80 | with a silent ringtone that is never changed, no session ever rings, and only previews add to the tone log |
| TimeUtil.Decimal | utils/time.ts:4 | `toString` of a non-negative integer is a non-empty string of decimal digits; its value and length are stated by TimeUtil.ValueDecimal and TimeUtil.DecimalLength |
| TimeUtil.PadStart2 | utils/time.ts:4 | `padStart(2, '0')` yields max(2, length) characters: the input at the end, preceded only by zeros |
| TimeUtil.FormatTime | utils/time.ts:1-5 | the display has at least five characters; its shape, decoding, sign symmetry and width are stated by TimeUtil.FormatTimeShape, TimeUtil.DecodeFormatTime, TimeUtil.FormatTimeSign and TimeUtil.FormatTimeWidth |
| TimeUtil.DecimalLength | utils/time.ts:4 | `toString` of a non-negative integer has no leading zero, one digit iff below 10, at most two below 100 |
| TimeUtil.ValueDecimal | utils/time.ts:4 | the decimal rendering reads back as the number |
| TimeUtil.FormatTimeSign | utils/time.ts:2-3 | formatTime(x) = formatTime(−x) |
| TimeUtil.FormatTimeZero | utils/time.ts:1-5 | formatTime(0) = "00:00" |
| TimeUtil.FormatTimeShape | utils/time.ts:3-4 | the display is at least two minute digits, a colon and exactly two second digits denoting the magnitude mod 60, below 60 |
| TimeUtil.FormatTimeWidth | utils/time.ts:2-4 | below 6000 seconds in magnitude the display is exactly five characters |
| TimeUtil.DecodeFormatTime | utils/time.ts:2-4 | reading the display back gives 60*minutes + seconds = the magnitude of x |
| TimeUtil.CalculateProgress | utils/time.ts:7-11 | the percentage lies in [0, 100]; a zero total gives 0; remaining = total ≠ 0 gives 0; remaining = 0 with a non-zero total gives 100 |
| TimeUtil.ProgressExact | utils/time.ts:9-10 | inside the countdown (0 ≤ remaining ≤ total) the percentage is exactly (total − remaining)*100/total |
| TimeUtil.ProgressMonotone | utils/time.ts:9-10 | with a positive total, less time remaining never shows less progress |
| SettingsModal.Open | components/SettingsModal.tsx:29-34 | opening loads minutes = ceil(duration/60), so minutes*60 ≥ duration > (minutes − 1)*60, and the current ringtone |
| SettingsModal.SaveSeconds | components/SettingsModal.tsx:38-40 | the saved seconds are minutes*60 when positive and 60 otherwise: always a positive multiple of 60 |
| SettingsModal.Save | components/SettingsModal.tsx:38-42 | saving hands on the dialog's minutes times 60 (60 seconds when that is not positive), so always a positive multiple of 60, and the selected ringtone |
| SettingsModal.SelectPreset | components/SettingsModal.tsx:84 | a preset button sets the minutes to that preset, which lies in [3, 60] |
| SettingsModal.SelectRingtone | components/SettingsModal.tsx:44-47 | choosing a ringtone records it and forwards the same ringtone for preview, keeping the minutes |
| SettingsModal.PresetsInRange | components/SettingsModal.tsx:15 | every preset lies in [3, 60] minutes |
| SettingsModal.OpenSaveRoundsUp | components/SettingsModal.tsx:29-42 | opening then saving maps d ≥ 0 to the least multiple of 60 that is ≥ max(d, 1) |
| SettingsModal.OpenSaveWholeMinutes | components/SettingsModal.tsx:31-40 | a positive multiple of 60 round-trips through the dialog unchanged |
| SettingsModal.OpenSaveZero | components/SettingsModal.tsx:39-40 | a zero duration is saved as 60 seconds |
| SettingsModal.PresetSaves | components/SettingsModal.tsx:84 | choosing a preset and saving hands on preset*60 seconds |
| TimerSection.MainAction | components/TimerSection.tsx:71-79 | the main button silences a ringing engine without touching its countdown or target; otherwise it pauses a running engine, capturing max(0, ceil((target − now)/1000)) as the display and clearing a truthy target (a falsy one is left with the display as it was), and starts any other, reloading an exhausted display from the duration and targeting now + display*1000; duration, ringtone and the tone log never change |
| TimerSection.MainActionSilences | components/TimerSection.tsx:72-73 | on a ringing engine the main button leaves it completed, silent and valid, with the same display |
| TimerSection.MainActionTwice | components/TimerSection.tsx:74-78 | two presses at the same instant on a stopped silent engine leave it paused with its display (reloaded if exhausted) |
| TimerSection.SettingsSave | components/TimerSection.tsx:82-85 | saving settings leaves the engine idle with display = duration = the new seconds and the new ringtone |
| TimerSection.SettingsSaveValid | components/TimerSection.tsx:82-85 | saving non-negative seconds leaves a valid engine |
| TimerSection.PreviewFromDialog | components/TimerSection.tsx:264-267 | a preview from the dialog sets the engine's ringtone at once and plays it, changing nothing else |
| TimerSection.SafeDuration | components/TimerSection.tsx:91 | the progress divisor is at least 1 and equals a positive duration |
| TimerSection.ProgressFraction | components/TimerSection.tsx:91-93 | the drawn share lies in [0, 1] and is exactly display/duration when 0 ≤ display ≤ duration |
| TimerSection.StatusColorOf | components/TimerSection.tsx:65-69 | red iff completed; amber iff running with fewer than 60 seconds shown |
| TimerSection.QuickMinus | components/TimerSection.tsx:212 | the −1 min button lowers the duration by 60 floored at 0 in every state, and a stopped engine's display likewise, keeping its status; a running countdown with more than 60 s left keeps running with its target 60 000 ms earlier and shows 60 s less, and one with 60 s or less completes at once, showing 0 and ringing iff the ringtone is not silent |
| TimerSection.QuickPlus | components/TimerSection.tsx:223 | the +1 min button raises the duration by 60 in every state, a stopped engine's display likewise, and a running countdown that has not yet completed keeps running with its target 60 000 ms later and shows 60 s more |
| TimerSection.QuickMinusPlus | components/TimerSection.tsx:212-223 | −1 min then +1 min restores a duration of at least 60 in any state; a stopped engine showing at least 60 comes back unchanged |
| TimerSection.PickRingtoneAsWritten | components/SettingsModal.tsx:29-34 | choosing a different ringtone in the open dialog reloads the dialog from the engine, because the open effect depends on the engine's ringtone |
| TimerSection.PickRingtoneAsWrittenLosesPreset | components/SettingsModal.tsx:29-47 | with a 15-minute timer, choosing the 10-minute preset and then another ringtone saves 900 seconds |
| TimerSection.PickRingtone | components/SettingsModal.tsx:44-47 | with the corrected ringtone handling (not the source's wiring; see ## Findings), choosing a ringtone previews it on the engine and keeps the dialog's minutes |
| TimerSection.SettingsSessionApplies | components/TimerSection.tsx:82-85 | with the corrected ringtone handling (not the source's wiring; see ## Findings), open, preset, ringtone, save leaves a valid idle engine with duration = display = preset*60 and the chosen ringtone |
| AppLayout.Toggle | App.tsx:11-16 | from the split view a toggle shows that section alone; from either full view it returns to the split view |
| AppLayout.HeightOf | App.tsx:25 | a panel is half height iff the divider is shown and full height iff it is the full-screen panel |
| AppLayout.ToggleTwice | App.tsx:12-15 | toggling the same section twice from the split view returns to it |
| AppLayout.ToggleFromFull | App.tsx:14 | from either full view, either section's toggle returns to the split view |
| AppLayout.OneFullScreen | App.tsx:32-57 | never are both panels full screen, and one is exactly when the divider is hidden |
| AppLayout.IsFullScreen | App.tsx:32 | a panel is full screen exactly when the active section is that panel alone (the same test at App.tsx:57 for the Q&A panel), never in the split view |
| AppLayout.DividerVisible | App.tsx:38 | the divider is drawn exactly when neither panel is full screen |
| AppLayout.InitialPanels | App.tsx:5-6 | the panels start valid, showing 900 and 300 seconds |

## Findings

| source | as written | input that shows it | evidently intended | confidence | as-written member | corrected member |
|---|---|---|---|---|---|---|
| components/SettingsModal.tsx:29-34 | the open effect depends on the current ringtone, and choosing a ringtone in the dialog immediately changes the engine's ringtone (components/TimerSection.tsx:264-267), so the effect runs again and resets the unsaved minutes to ceil(duration/60) | 15-minute timer with the bell; open, choose the 10-minute preset, choose the alarm tone, save: 900 seconds are saved | the minutes chosen in the dialog survive a ringtone choice, so 600 seconds are saved | medium; not executed | TimerSection.PickRingtoneAsWritten, TimerSection.PickRingtoneAsWrittenLosesPreset | TimerSection.PickRingtone, TimerSection.SettingsSessionApplies |

## Left out

- Tone synthesis in `playTone` (oscillators, gain ramps) is left out. It is floating-point work in a browser audio API. Each playback is one entry in the `played` log.
- Audio context creation and resume (`initAudio`) are left out. They are foreign browser calls. The model assumes the audio output is available. With no audio context, `playTone` plays nothing, and the log would then record requests rather than sounds.
- Real scheduling is left out: `setInterval`/`clearInterval`, the 200 ms polling cadence and effect cleanup on unmount. They become the explicit steps `Tick` and `AlarmRepeat`. Each happens only in the state that armed it.
- React state batching and stale closures are left out. Each command applies atomically to the current snapshot.
- `Date.now()` is left out. It becomes the integer parameter `now`.
- `Math.ceil` on floating-point division is modelled as exact integer ceiling division. This is faithful while the millisecond differences stay far below 2^53, which holds for real clock readings.
- Non-integer arguments to `formatTime` are left out. The model takes whole seconds.
- TimerSection.ProgressFraction: the ring's share `timeLeft / safeDuration` is a division of floating-point doubles in the source; the model divides exact reals, so "exactly display/duration" holds up to the rounding of that division, which is not modelled.
- All millisecond and second arithmetic (`now + targetTime*1000`, the target shift by `seconds*1000`, the ceiling of the remaining milliseconds, the digits produced by `toString` in `formatTime`) is done on floating-point doubles in the source and on unbounded integers here; the two agree only while every value stays below 2^53 in magnitude, which real clock readings and durations do.
- `calculateProgress` is modelled over exact reals. Rounding, infinities and NaN are not modelled.
- Rendering, styling, icons, the SVG ring geometry and dialog visibility (`isOpen`, `onClose`) are left out.
- The slider's `parseInt` of the DOM value (1–120 minutes) is left out. It is DOM input handling. The minutes reach the model only through `Open` and the presets.
- The unused declarations in `types.ts` (`TimerState`, `ThemeConfig`, `TimerType`) are left out.

=== FILE: app_layout.dfy ===
/** App.tsx: the two timer panels and the full-screen toggle between them. */
module AppLayout {
  import opened Timer

  /** Which panels are shown: both split, or one of them full screen. */
  datatype ActiveSection = Both | PptOnly | QaOnly

  /** The two panels. */
  datatype Section = Ppt | Qa

  /** The height class of a panel. */
  datatype Height = Half | Full | Hidden

  /** Default durations, in seconds. */
  const DefaultPptTime: int := 15 * 60
  const DefaultQaTime: int := 5 * 60

  function Only(s: Section): ActiveSection {
    if s == Ppt then PptOnly else QaOnly
  }

  /** `handleToggleFullScreen(section)`: from the split view show the
      section alone; from either full view go back to the split view. */
  function Toggle(prev: ActiveSection, s: Section): (r: ActiveSection)
    ensures prev == Both ==> r == Only(s)
    ensures prev != Both ==> r == Both
  {
    if prev == Both then Only(s) else Both
  }

  /** `isFullScreen` passed to a panel. */
  predicate IsFullScreen(a: ActiveSection, s: Section): (b: bool)
    ensures b ==> a != Both
    ensures b <==> (a == PptOnly && s == Ppt) || (a == QaOnly && s == Qa)
  {
    a == Only(s)
  }

  /** The divider is drawn only in the split view. */
  predicate DividerVisible(a: ActiveSection): (b: bool)
    ensures b <==> !IsFullScreen(a, Ppt) && !IsFullScreen(a, Qa)
  {
    a == Both
  }

  /** The height class of a panel. */
  function HeightOf(a: ActiveSection, s: Section): (h: Height)
    ensures h == Half <==> DividerVisible(a)
    ensures h == Full <==> IsFullScreen(a, s)
  {
    if a == Both then Half else if a == Only(s) then Full else Hidden
  }

  /** Toggling the same section twice from the split view returns to it. */
  lemma ToggleTwice(s: Section)
    ensures Toggle(Toggle(Both, s), s) == Both
  {
  }

  /** From a full view, either section's toggle returns to the split view. */
  lemma ToggleFromFull(a: ActiveSection, s: Section)
    requires a != Both
    ensures Toggle(a, s) == Both
  {
  }

  /** At most one panel is full screen, and exactly one when the divider is hidden. */
  lemma OneFullScreen(a: ActiveSection)
    ensures !(IsFullScreen(a, Ppt) && IsFullScreen(a, Qa))
    ensures !DividerVisible(a) <==> IsFullScreen(a, Ppt) || IsFullScreen(a, Qa)
  {
  }

  /** Both panels start valid, idle and showing their default duration. */
  lemma InitialPanels()
    ensures Valid(Init(DefaultPptTime)) && Init(DefaultPptTime).timeLeft == 900
    ensures Valid(Init(DefaultQaTime)) && Init(DefaultQaTime).timeLeft == 300
  {
  }
}

=== FILE: ceil.dfy ===
/** Integer ceiling division, the model of `Math.ceil(a / d)` on whole numbers. */
module Ceil {

  /** The least q with q * d >= a. Dafny's `/` is Euclidean, so with a
      positive divisor `(a + d - 1) / d` is the ceiling for negative `a` too. */
  function CeilDiv(a: int, d: int): (q: int)
    requires d > 0
    ensures q * d >= a
    ensures (q - 1) * d < a
  {
    var q := (a + d - 1) / d;
    assert q * d + (a + d - 1) % d == a + d - 1;
    q
  }

  /** Multiplying by a positive factor keeps the order. */
  lemma MulMonotone(x: int, y: int, d: int)
    requires d > 0 && x <= y
    ensures x * d <= y * d
  {
    assert y * d - x * d == (y - x) * d;
  }

  /** The ceiling is the unique integer with the two bounds above. */
  lemma CeilDivUnique(a: int, d: int, q: int)
    requires d > 0
    requires q * d >= a && (q - 1) * d < a
    ensures q == CeilDiv(a, d)
  {
    var c := CeilDiv(a, d);
    if q < c {
      MulMonotone(q, c - 1, d);
      assert false;
    } else if q > c {
      MulMonotone(c, q - 1, d);
      assert false;
    }
  }

  /** A larger numerator never gives a smaller ceiling. */
  lemma CeilDivMonotone(a: int, b: int, d: int)
    requires d > 0
    requires a <= b
    ensures CeilDiv(a, d) <= CeilDiv(b, d)
  {
    var qa, qb := CeilDiv(a, d), CeilDiv(b, d);
    if qa > qb {
      MulMonotone(qb, qa - 1, d);
      assert false;
    }
  }

  /** The ceiling is positive exactly when the numerator is. */
  lemma CeilDivPositive(a: int, d: int)
    requires d > 0
    ensures CeilDiv(a, d) >= 1 <==> a > 0
  {
    var q := CeilDiv(a, d);
    if q >= 1 {
      assert (q - 1) * d >= 0;
    } else {
      assert q * d <= 0;
    }
  }

  /** Shifting the numerator by whole multiples of d shifts the ceiling by the same count. */
  lemma CeilDivShift(a: int, k: int, d: int)
    requires d > 0
    ensures CeilDiv(a + k * d, d) == CeilDiv(a, d) + k
  {
    var q := CeilDiv(a, d);
    assert (q + k) * d == q * d + k * d;
    assert (q + k - 1) * d == (q - 1) * d + k * d;
    CeilDivUnique(a + k * d, d, q + k);
  }
}

=== FILE: settings_modal.dfy ===
/** components/SettingsModal.tsx: the duration and ringtone dialog, without
    its rendering. The dialog holds a whole number of minutes and a selected
    ringtone; saving hands seconds and the ringtone to the caller. */
module SettingsModal {
  import opened TimerTypes
  import Ceil

  /** The preset buttons, in minutes. */
  const PresetTimes: seq<int> := [3, 5, 10, 15, 20, 30, 45, 60]

  datatype Dialog = Dialog(minutes: int, selected: Ringtone)

  /** What `onSave` receives. */
  datatype Saved = Saved(seconds: int, tone: Ringtone)

  /** What choosing a ringtone produces: the new dialog state and the
      ringtone passed to `onPreviewRingtone`. */
  datatype Selection = Selection(dialog: Dialog, previewed: Ringtone)

  /** The open effect: whole minutes rounded up from the current duration,
      and the current ringtone. */
  function Open(currentDuration: int, currentRingtone: Ringtone): (dlg: Dialog)
    ensures dlg.minutes * 60 >= currentDuration
    ensures (dlg.minutes - 1) * 60 < currentDuration
    ensures dlg.selected == currentRingtone
  {
    Dialog(Ceil.CeilDiv(currentDuration, 60), currentRingtone)
  }

  /** The seconds `handleSave` hands on: the minutes in seconds, or one
      minute when that is not positive. */
  function SaveSeconds(minutes: int): (s: int)
    ensures s >= 60 && s % 60 == 0
    ensures minutes > 0 ==> s == minutes * 60
    ensures minutes <= 0 ==> s == 60
  {
    var total := minutes * 60;
    if total > 0 then total else 60
  }

  /** `handleSave`. */
  function Save(dlg: Dialog): (r: Saved)
    ensures r.seconds >= 60 && r.seconds % 60 == 0
    ensures r.seconds == SaveSeconds(dlg.minutes)
    ensures r.tone == dlg.selected
  {
    Saved(SaveSeconds(dlg.minutes), dlg.selected)
  }

  /** A preset button. */
  function SelectPreset(dlg: Dialog, i: nat): (r: Dialog)
    requires i < |PresetTimes|
    ensures r.minutes == PresetTimes[i] && 3 <= r.minutes <= 60
    ensures r.selected == dlg.selected
  {
    dlg.(minutes := PresetTimes[i])
  }

  /** `handleRingtoneSelect`: records the choice and forwards it for preview. */
  function SelectRingtone(dlg: Dialog, t: Ringtone): (r: Selection)
    ensures r.dialog.selected == t && r.previewed == t
    ensures r.dialog.minutes == dlg.minutes
  {
    Selection(dlg.(selected := t), t)
  }

  /** Every preset lies between 3 and 60 minutes. */
  lemma PresetsInRange()
    ensures forall i :: 0 <= i < |PresetTimes| ==> 3 <= PresetTimes[i] <= 60
  {
  }

  /** Opening and saving unchanged rounds the duration up to the least
      multiple of 60 that is at least max(d, 1). */
  lemma OpenSaveRoundsUp(d: int, t: Ringtone)
    requires d >= 0
    ensures var s := Save(Open(d, t)).seconds;
      var floor := if d > 0 then d else 1;
      s % 60 == 0 && s >= floor && s - 60 < floor
  {
  }

  /** A positive whole number of minutes round-trips through the dialog. */
  lemma OpenSaveWholeMinutes(k: int, t: Ringtone)
    requires k >= 1
    ensures Save(Open(60 * k, t)) == Saved(60 * k, t)
  {
    Ceil.CeilDivUnique(60 * k, 60, k);
  }

  /** A zero duration is saved as one minute. */
  lemma OpenSaveZero(t: Ringtone)
    ensures Save(Open(0, t)) == Saved(60, t)
  {
  }

  /** Choosing a preset and saving hands on exactly that many minutes. */
  lemma PresetSaves(dlg: Dialog, i: nat)
    requires i < |PresetTimes|
    ensures Save(SelectPreset(dlg, i)) == Saved(PresetTimes[i] * 60, dlg.selected)
  {
  }
}

=== FILE: time_util.dfy ===
/** utils/time.ts: the `MM:SS` display format and the progress percentage. */
module TimeUtil {
  import opened Wrappers

  // ------------------------------------------------------------- decimals

  predicate IsDigit(c: char) {
    '0' <= c <= '9'
  }

  predicate AllDigits(s: string) {
    forall i :: 0 <= i < |s| ==> IsDigit(s[i])
  }

  function DigitChar(d: int): (c: char)
    requires 0 <= d < 10
    ensures IsDigit(c)
  {
    "0123456789"[d]
  }

  function DigitValue(c: char): (d: int)
    requires IsDigit(c)
    ensures 0 <= d < 10
  {
    c as int - '0' as int
  }

  /** `n.toString()` for a non-negative integer: decimal digits without
      leading zeros. */
  function Decimal(n: nat): (s: string)
    ensures |s| >= 1 && AllDigits(s)
    decreases n
  {
    if n < 10 then [DigitChar(n)] else Decimal(n / 10) + [DigitChar(n % 10)]
  }

  /** The rendering has no leading zero and one digit exactly below 10,
      at most two below 100. */
  lemma {:induction false} DecimalLength(n: nat)
    ensures n < 10 <==> |Decimal(n)| == 1
    ensures n < 100 ==> |Decimal(n)| <= 2
    ensures Decimal(n)[0] == '0' ==> n == 0
    decreases n
  {
    if n >= 10 {
      DecimalLength(n / 10);
      assert Decimal(n)[0] == Decimal(n / 10)[0];
    }
  }

  /** The number a string of decimal digits denotes. */
  function Value(s: string): nat
    requires AllDigits(s)
    decreases |s|
  {
    if |s| == 0 then 0 else 10 * Value(s[..|s| - 1]) + DigitValue(s[|s| - 1])
  }

  /** Reading back a decimal rendering gives the number. */
  lemma {:induction false} ValueDecimal(n: nat)
    ensures Value(Decimal(n)) == n
    decreases n
  {
    var s := Decimal(n);
    if n >= 10 {
      assert s[..|s| - 1] == Decimal(n / 10);
      ValueDecimal(n / 10);
      assert DigitValue(DigitChar(n % 10)) == n % 10;
    } else {
      assert DigitValue(DigitChar(n)) == n;
    }
  }

  /** A leading zero does not change the value. */
  lemma {:induction false} ValueLeadingZero(s: string)
    requires AllDigits(s)
    ensures AllDigits("0" + s) && Value("0" + s) == Value(s)
    decreases |s|
  {
    var z := "0" + s;
    assert AllDigits(z) by {
      forall i | 0 <= i < |z| ensures IsDigit(z[i]) {
        if i > 0 { assert z[i] == s[i - 1]; }
      }
    }
    if |s| > 0 {
      assert z[..|z| - 1] == "0" + s[..|s| - 1];
      ValueLeadingZero(s[..|s| - 1]);
    } else {
      assert z[..|z| - 1] == [];
    }
  }

  /** `s.padStart(2, '0')`. */
  function PadStart2(s: string): (r: string)
    ensures |r| == if |s| < 2 then 2 else |s|
    ensures |r| >= |s| && r[|r| - |s|..] == s
    ensures forall i :: 0 <= i < |r| - |s| ==> r[i] == '0'
  {
    if |s| == 0 then "00" else if |s| == 1 then "0" + s else s
  }

  /** Left-padding digits with zeros keeps them digits of the same value. */
  lemma PadStart2Value(s: string)
    requires AllDigits(s)
    ensures AllDigits(PadStart2(s)) && Value(PadStart2(s)) == Value(s)
  {
    if |s| == 1 {
      assert PadStart2(s) == "0" + s;
      ValueLeadingZero(s);
    } else if |s| == 0 {
      assert PadStart2(s) == "0" + "0";
      ValueLeadingZero("0");
      ValueLeadingZero([]);
    }
  }

  // ---------------------------------------------------------- formatTime

  function Abs(x: int): nat {
    if x < 0 then -x else x
  }

  /** One field of the display: `n.toString().padStart(2, '0')`. */
  function Field(n: nat): string {
    PadStart2(Decimal(n))
  }

  /** A field is at least two digits, exactly two below 100, and reads back as its number. */
  lemma FieldFacts(n: nat)
    ensures AllDigits(Field(n)) && Value(Field(n)) == n
    ensures |Field(n)| >= 2
    ensures n < 100 ==> |Field(n)| == 2
  {
    PadStart2Value(Decimal(n));
    ValueDecimal(n);
    DecimalLength(n);
  }

  /** Minutes and seconds fields around a colon. */
  function Clock(mins: nat, secs: nat): string {
    Field(mins) + ":" + Field(secs)
  }

  /** `formatTime(seconds)` on whole seconds: minutes and seconds of the
      magnitude, each padded to two digits, joined by a colon. */
  function FormatTime(x: int): (r: string)
    ensures |r| >= 5
  {
    var mins, secs := Abs(x) / 60, Abs(x) % 60;
    FieldFacts(mins);
    FieldFacts(secs);
    Clock(mins, secs)
  }

  /** Reads an `M…M:SS` display back into seconds: the colon stands before
      the last two characters. */
  function DecodeClock(t: string): Option<int> {
    if |t| >= 3 && t[|t| - 3] == ':' then DecodeFields(t[..|t| - 3], t[|t| - 2..])
    else None
  }

  /** Minutes and seconds digit fields to seconds. */
  function DecodeFields(m: string, sec: string): Option<int> {
    if AllDigits(m) && AllDigits(sec) then Some(60 * Value(m) + Value(sec)) else None
  }

  /** The sign is discarded. */
  lemma FormatTimeSign(x: int)
    ensures FormatTime(x) == FormatTime(-x)
  {
    assert Abs(x) == Abs(-x);
  }

  /** The zero display. */
  lemma FormatTimeZero()
    ensures FormatTime(0) == "00:00"
  {
    assert Decimal(0) == "0";
  }

  /** Where the colon and the two fields sit in a joined display. */
  lemma SplitAtColon(m: string, sec: string)
    requires |sec| == 2
    ensures var t := m + ":" + sec;
      |t| >= 3 && t[|t| - 3] == ':' && t[..|t| - 3] == m && t[|t| - 2..] == sec
  {
    var t := m + ":" + sec;
    assert t[..|t| - 3] == m;
    assert t[|t| - 2..] == sec;
  }

  /** Shape of a display with fewer than 100 seconds: at least two minute
      digits, a colon, and exactly two second digits. */
  lemma ClockShape(mins: nat, secs: nat)
    requires secs < 100
    ensures var t := Clock(mins, secs);
      && |t| >= 5
      && t[|t| - 3] == ':'
      && AllDigits(t[..|t| - 3]) && |t[..|t| - 3]| >= 2
      && AllDigits(t[|t| - 2..])
      && Value(t[|t| - 2..]) == secs
      && DecodeClock(t) == Some(60 * mins + secs)
  {
    FieldFacts(mins);
    FieldFacts(secs);
    JoinShape(Field(mins), Field(secs));
  }

  /** A display joined from digit fields, with two second digits. */
  lemma JoinShape(m: string, sec: string)
    requires AllDigits(m) && AllDigits(sec) && |m| >= 2 && |sec| == 2
    ensures var t := m + ":" + sec;
      && |t| >= 5
      && t[|t| - 3] == ':'
      && AllDigits(t[..|t| - 3]) && |t[..|t| - 3]| >= 2
      && AllDigits(t[|t| - 2..])
      && Value(t[|t| - 2..]) == Value(sec)
      && DecodeClock(t) == Some(60 * Value(m) + Value(sec))
  {
    SplitAtColon(m, sec);
  }

  /** Shape of the display: at least two minute digits, a colon, and exactly
      two second digits denoting a value below 60. */
  lemma FormatTimeShape(x: int)
    ensures var t := FormatTime(x);
      && |t| >= 5
      && t[|t| - 3] == ':'
      && AllDigits(t[..|t| - 3]) && |t[..|t| - 3]| >= 2
      && AllDigits(t[|t| - 2..])
      && Value(t[|t| - 2..]) == Abs(x) % 60 < 60
  {
    ClockShape(Abs(x) / 60, Abs(x) % 60);
  }

  /** Below 100 minutes the display is exactly five characters. */
  lemma FormatTimeWidth(x: int)
    requires Abs(x) < 6000
    ensures |FormatTime(x)| == 5
  {
    var mins, secs := Abs(x) / 60, Abs(x) % 60;
    FieldFacts(mins);
    FieldFacts(secs);
  }

  /** Decoding the display recovers the magnitude: 60 * minutes + seconds == |x|. */
  lemma DecodeFormatTime(x: int)
    ensures DecodeClock(FormatTime(x)) == Some(Abs(x))
  {
    var mins, secs := Abs(x) / 60, Abs(x) % 60;
    ClockShape(mins, secs);
  }

  // --------------------------------------------------- calculateProgress

  function Clamp(lo: real, hi: real, v: real): real
    requires lo <= hi
  {
    if v < lo then lo else if v > hi then hi else v
  }

  /** `calculateProgress(total, remaining)`: the elapsed share in percent,
      clamped to [0, 100]; a zero total gives 0. */
  function CalculateProgress(total: real, remaining: real): (r: real)
    ensures 0.0 <= r <= 100.0
    ensures total == 0.0 ==> r == 0.0
    ensures total != 0.0 && remaining == total ==> r == 0.0
    ensures total != 0.0 && remaining == 0.0 ==> r == 100.0
  {
    if total == 0.0 then 0.0
    else Clamp(0.0, 100.0, ((total - remaining) / total) * 100.0)
  }

  /** Inside the countdown the percentage is exact, not clamped. */
  lemma ProgressExact(total: real, remaining: real)
    requires 0.0 < total && 0.0 <= remaining <= total
    ensures CalculateProgress(total, remaining) == (total - remaining) * 100.0 / total
  {
    var p := (total - remaining) / total;
    assert 0.0 <= p <= 1.0 by {
      assert p * total == total - remaining;
    }
  }

  /** Less time remaining never shows less progress. */
  lemma ProgressMonotone(total: real, r1: real, r2: real)
    requires 0.0 < total && r1 <= r2
    ensures CalculateProgress(total, r2) <= CalculateProgress(total, r1)
  {
    var p1 := (total - r1) / total;
    var p2 := (total - r2) / total;
    assert p2 <= p1 by {
      assert p1 - p2 == (r2 - r1) / total;
    }
  }
}

=== FILE: timer.dfy ===
/** The countdown timer engine of hooks/useTimer.ts.

    The hook's React state and refs become one immutable `Engine` record, and
    every command becomes a pure transition. The wall clock (`Date.now()`, in
    ms) is the parameter `now`; the polling interval body becomes the explicit
    step `Tick`; the repeating alarm interval becomes the `alarm` field, which
    records the tone locked at alarm start and its repeat period; every tone
    playback is an entry appended to the `played` log. */
module Timer {
  import opened Wrappers
  import opened TimerTypes
  import Ceil

  /** The handle of the repeating alarm: the tone captured when the alarm
      started and the repeat period in ms. */
  datatype ArmedAlarm = ArmedAlarm(tone: Ringtone, periodMs: int)

  datatype Engine = Engine(
    duration: int,              // total configured seconds
    timeLeft: int,              // displayed seconds
    status: Status,
    ringtone: Ringtone,
    isRinging: bool,
    endTime: Option<int>,       // absolute end instant in ms (endTimeRef)
    alarm: Option<ArmedAlarm>,  // the armed repeat (alarmIntervalRef)
    played: seq<Ringtone>)      // every tone handed to the audio output, oldest first

  /** The state invariant every command keeps. */
  predicate Valid(e: Engine) {
    && (e.endTime.Some? <==> e.status == Running)
    && (e.status == Running ==> e.endTime.value > 0)
    && (e.isRinging ==> e.status == Completed)
    && (e.alarm.Some? <==> e.isRinging)
    && (e.alarm.Some? ==> e.alarm.value.tone != Silent && e.alarm.value.periodMs == TonePeriod(e.alarm.value.tone))
    && e.timeLeft >= 0
    && e.duration >= 0
  }

  /** Everything but the alarm-related fields is equal. */
  predicate SameClock(a: Engine, b: Engine) {
    a.duration == b.duration && a.timeLeft == b.timeLeft && a.status == b.status
    && a.ringtone == b.ringtone && a.endTime == b.endTime
  }

  /** A fresh engine: `useTimer(initialDurationSeconds)`. */
  function Init(initialDuration: int): (r: Engine)
    ensures r.duration == r.timeLeft == initialDuration
    ensures r.status == Idle && r.ringtone == Bell
    ensures !r.isRinging && r.endTime == None && r.alarm == None && r.played == []
  {
    Engine(initialDuration, initialDuration, Idle, Bell, false, None, None, [])
  }

  // ---------------------------------------------------------------- clock

  /** `Math.ceil((end - now) / 1000)`: whole seconds from `now` until `end`. */
  function SecondsUntil(end: int, now: int): (r: int)
    ensures r * 1000 >= end - now
    ensures (r - 1) * 1000 < end - now
  {
    Ceil.CeilDiv(end - now, 1000)
  }

  /** `Math.max(0, x)`. */
  function Max0(x: int): (r: int)
    ensures r >= 0 && r >= x
    ensures r == x || r == 0
  {
    if x > 0 then x else 0
  }

  /** JavaScript truthiness of `endTimeRef.current`: null and 0 are both falsy. */
  predicate HasTarget(e: Engine) {
    e.endTime.Some? && e.endTime.value != 0
  }

  // ---------------------------------------------------------------- alarm

  /** Repeat period in ms of the alarm for a ringtone. */
  function TonePeriod(t: Ringtone): (ms: int)
    ensures ms > 0
    ensures t == Bell ==> ms == 2000
    ensures t == Alarm ==> ms == 800
    ensures t == Digital ==> ms == 1000
  {
    if t == Bell then 2000 else if t == Alarm then 800 else 1000
  }

  /** `playTone(type)`: the silent ringtone produces no sound. */
  function PlayTone(played: seq<Ringtone>, t: Ringtone): seq<Ringtone> {
    if t == Silent then played else played + [t]
  }

  /** `startAlarm()`: unless the ringtone is silent, ring, play once and arm a
      repeat with the ringtone locked at this moment. */
  function StartAlarm(e: Engine): (r: Engine)
    ensures SameClock(r, e)
    ensures e.ringtone == Silent ==> r == e
    ensures e.ringtone != Silent ==>
      && r.isRinging
      && r.played == e.played + [e.ringtone]
      && r.alarm == Some(ArmedAlarm(e.ringtone, TonePeriod(e.ringtone)))
  {
    if e.ringtone == Silent then e
    else
      e.(isRinging := true,
         played := PlayTone(e.played, e.ringtone),
         alarm := Some(ArmedAlarm(e.ringtone, TonePeriod(e.ringtone))))
  }

  /** `stopAlarm()`: stop ringing and cancel the armed repeat. */
  function StopAlarm(e: Engine): (r: Engine)
    ensures SameClock(r, e) && r.played == e.played
    ensures !r.isRinging && r.alarm == None
  {
    e.(isRinging := false, alarm := None)
  }

  /** One firing of the armed repeat: plays the locked tone, not the current setting. */
  function AlarmRepeat(e: Engine): (r: Engine)
    ensures SameClock(r, e) && r.isRinging == e.isRinging && r.alarm == e.alarm
    ensures e.alarm.None? ==> r.played == e.played
    ensures e.alarm.Some? && e.alarm.value.tone != Silent ==> r.played == e.played + [e.alarm.value.tone]
  {
    match e.alarm
    case None => e
    case Some(a) => e.(played := PlayTone(e.played, a.tone))
  }

  /** `previewRingtone(type)`: plays one tone and changes nothing else. */
  function PreviewRingtone(e: Engine, t: Ringtone): (r: Engine)
    ensures SameClock(r, e) && r.isRinging == e.isRinging && r.alarm == e.alarm
    ensures t == Silent ==> r.played == e.played
    ensures t != Silent ==> r.played == e.played + [t]
  {
    e.(played := PlayTone(e.played, t))
  }

  /** `setRingtone(type)`: changes the setting only; an armed alarm keeps its tone. */
  function SetRingtone(e: Engine, t: Ringtone): (r: Engine)
    ensures r.ringtone == t
    ensures r.(ringtone := e.ringtone) == e
  {
    e.(ringtone := t)
  }

  // ------------------------------------------------------------- commands

  /** Entry into `completed`: display zero, drop the target and start the alarm. */
  function Complete(e: Engine): (r: Engine)
    ensures r.status == Completed && r.timeLeft == 0 && r.endTime == None
    ensures r.duration == e.duration && r.ringtone == e.ringtone
    ensures r.isRinging <==> e.isRinging || e.ringtone != Silent
    ensures e.ringtone != Silent ==>
      r.played == e.played + [e.ringtone] && r.alarm == Some(ArmedAlarm(e.ringtone, TonePeriod(e.ringtone)))
    ensures e.ringtone == Silent ==> r.played == e.played && r.alarm == e.alarm
  {
    StartAlarm(e.(timeLeft := 0, status := Completed, endTime := None))
  }

  /** `start()`. */
  function Start(e: Engine, now: int): (r: Engine)
    ensures r.duration == e.duration && r.ringtone == e.ringtone && r.played == e.played
    ensures e.isRinging ==> !r.isRinging && r.alarm == None
    ensures e.status == Running ==> r.status == Running && r.timeLeft == e.timeLeft && r.endTime == e.endTime
    ensures e.status != Running ==>
      && r.status == Running
      && r.timeLeft == (if e.timeLeft <= 0 then e.duration else e.timeLeft)
      && r.endTime == Some(now + r.timeLeft * 1000)
  {
    var e1 := if e.isRinging then StopAlarm(e) else e;
    if e1.status == Running then e1
    else
      var target := if e1.timeLeft <= 0 then e1.duration else e1.timeLeft;
      e1.(timeLeft := target, endTime := Some(now + target * 1000), status := Running)
  }

  /** `pause()`. */
  function Pause(e: Engine, now: int): (r: Engine)
    ensures e.status != Running ==> r == e
    ensures e.status == Running ==>
      && r.status == Paused && !r.isRinging && r.alarm == None
      && r.duration == e.duration && r.ringtone == e.ringtone && r.played == e.played
    ensures e.status == Running && HasTarget(e) ==>
      && r.endTime == None
      && r.timeLeft == Max0(SecondsUntil(e.endTime.value, now))
    ensures e.status == Running && !HasTarget(e) ==> r.endTime == e.endTime && r.timeLeft == e.timeLeft
  {
    if e.status != Running then e
    else
      var e1 := StopAlarm(e.(status := Paused));
      if HasTarget(e1) then
        e1.(timeLeft := Max0(SecondsUntil(e1.endTime.value, now)), endTime := None)
      else e1
  }

  /** `reset()`. */
  function Reset(e: Engine): (r: Engine)
    ensures r.status == Idle && r.timeLeft == e.duration && r.endTime == None
    ensures !r.isRinging && r.alarm == None
    ensures r.duration == e.duration && r.ringtone == e.ringtone && r.played == e.played
  {
    StopAlarm(e.(status := Idle, timeLeft := e.duration, endTime := None))
  }

  /** `setTime(newSeconds)`: reconfigure and reset. */
  function SetTime(e: Engine, newSeconds: int): (r: Engine)
    ensures r.duration == newSeconds && r.timeLeft == newSeconds
    ensures r.status == Idle && r.endTime == None && !r.isRinging && r.alarm == None
    ensures r.ringtone == e.ringtone && r.played == e.played
  {
    StopAlarm(e.(duration := newSeconds, timeLeft := newSeconds, status := Idle, endTime := None))
  }

  /** `adjustTime(seconds)`. */
  function Adjust(e: Engine, seconds: int, now: int): (r: Engine)
    ensures r.duration == Max0(e.duration + seconds)
    ensures r.ringtone == e.ringtone
    ensures !(e.status == Running && HasTarget(e)) ==>
      && r.timeLeft == Max0(e.timeLeft + seconds)
      && r.status == e.status && r.isRinging == e.isRinging
      && r.endTime == e.endTime && r.alarm == e.alarm && r.played == e.played
    ensures e.status == Running && HasTarget(e) ==>
      var end := e.endTime.value + seconds * 1000;
      if SecondsUntil(end, now) <= 0 then
        r.status == Completed && r.timeLeft == 0 && r.endTime == None
        && (r.isRinging <==> e.isRinging || e.ringtone != Silent)
        && (e.ringtone != Silent ==>
              r.played == e.played + [e.ringtone] && r.alarm == Some(ArmedAlarm(e.ringtone, TonePeriod(e.ringtone))))
        && (e.ringtone == Silent ==> r.played == e.played && r.alarm == e.alarm)
      else
        r.status == Running && r.timeLeft == SecondsUntil(end, now) && r.endTime == Some(end)
        && r.isRinging == e.isRinging && r.alarm == e.alarm && r.played == e.played
  {
    var e1 :=
      if e.status == Running && HasTarget(e) then
        var end := e.endTime.value + seconds * 1000;
        var remaining := Max0(SecondsUntil(end, now));
        if remaining <= 0 then Complete(e.(endTime := Some(end)))
        else e.(endTime := Some(end), timeLeft := remaining)
      else
        e.(timeLeft := Max0(e.timeLeft + seconds));
    e1.(duration := Max0(e.duration + seconds))
  }

  /** One run of the 200 ms polling callback of the timer effect. The
      interval exists only while the status is running. */
  function Tick(e: Engine, now: int): (r: Engine)
    ensures !(e.status == Running && HasTarget(e)) ==> r == e
    ensures e.status == Running && HasTarget(e) ==>
      && r.duration == e.duration && r.ringtone == e.ringtone
      && r.timeLeft == Max0(SecondsUntil(e.endTime.value, now))
      && (r.status == Completed <==> SecondsUntil(e.endTime.value, now) <= 0)
  {
    if e.status == Running && HasTarget(e) then
      var next := SecondsUntil(e.endTime.value, now);
      if next <= 0 then Complete(e) else e.(timeLeft := next)
    else e
  }

  // ------------------------------------------------------------- sessions

  /** Everything that can happen to an engine: a command of the hook's
      interface, a poll of the timer interval, or a firing of the alarm repeat. */
  datatype Command =
    | StartCmd
    | PauseCmd
    | ResetCmd
    | SetTimeCmd(seconds: int)
    | AdjustCmd(delta: int)
    | SetRingtoneCmd(tone: Ringtone)
    | StopAlarmCmd
    | PreviewCmd(tone: Ringtone)
    | TickCmd
    | AlarmRepeatCmd

  /** A command together with the wall-clock reading (ms) at which it happens. */
  datatype Event = Event(cmd: Command, now: int)

  function Step(e: Engine, c: Command, now: int): Engine {
    match c
    case StartCmd => Start(e, now)
    case PauseCmd => Pause(e, now)
    case ResetCmd => Reset(e)
    case SetTimeCmd(n) => SetTime(e, n)
    case AdjustCmd(d) => Adjust(e, d, now)
    case SetRingtoneCmd(t) => SetRingtone(e, t)
    case StopAlarmCmd => StopAlarm(e)
    case PreviewCmd(t) => PreviewRingtone(e, t)
    case TickCmd => Tick(e, now)
    case AlarmRepeatCmd => AlarmRepeat(e)
  }

  /** Applies the events in order. */
  function Run(e: Engine, events: seq<Event>): Engine
    decreases |events|
  {
    if |events| == 0 then e
    else Run(Step(e, events[0].cmd, events[0].now), events[1..])
  }
}

=== FILE: timer_lemmas.dfy ===
/** Properties of the timer engine: the state invariant, drift-free polling,
    the start/pause round trip, the alarm lifecycle and the reset identities. */
module TimerLemmas {
  import opened Wrappers
  import opened TimerTypes
  import opened Timer
  import Ceil

  /** Commands whose arguments keep the invariant: `setTime` with a negative
      count would store a negative duration. */
  predicate Admissible(c: Command) {
    c.SetTimeCmd? ==> c.seconds >= 0
  }

  /** Clock readings are milliseconds since the epoch, hence positive. */
  predicate AdmissibleEvents(events: seq<Event>) {
    forall i :: 0 <= i < |events| ==> Admissible(events[i].cmd) && events[i].now > 0
  }

  // ------------------------------------------------------------ invariant

  /** A fresh engine with a non-negative duration is valid, idle and shows its duration. */
  lemma InitValid(d: int)
    requires d >= 0
    ensures Valid(Init(d))
    ensures Init(d).status == Idle && Init(d).timeLeft == d && !Init(d).isRinging
  {
  }

  /** Entering `completed` from a running, non-ringing engine keeps the
      invariant, whatever its target. */
  lemma CompleteValid(e: Engine)
    requires e.status == Running && !e.isRinging && e.alarm == None && e.duration >= 0
    ensures Valid(Complete(e))
  {
  }

  /** Shifting the target while running keeps the invariant: a surviving
      target lies strictly after `now`, so it is positive. */
  lemma AdjustValid(e: Engine, seconds: int, now: int)
    requires Valid(e) && now > 0
    ensures Valid(Adjust(e, seconds, now))
    ensures Adjust(e, seconds, now).status == Running ==> Adjust(e, seconds, now).endTime.value > now
  {
    if e.status == Running && HasTarget(e) {
      var end := e.endTime.value + seconds * 1000;
      Ceil.CeilDivPositive(end - now, 1000);
      CompleteValid(e.(endTime := Some(end)));
    }
  }

  /** Every command keeps the invariant. */
  lemma StepValid(e: Engine, c: Command, now: int)
    requires Valid(e) && Admissible(c) && now > 0
    ensures Valid(Step(e, c, now))
  {
    match c
    case AdjustCmd(d) => AdjustValid(e, d, now);
    case TickCmd =>
      if e.status == Running && HasTarget(e) && SecondsUntil(e.endTime.value, now) <= 0 {
        CompleteValid(e);
      }
    case _ =>
  }

  /** Every session of admissible commands keeps the invariant. */
  lemma {:induction false} RunValid(e: Engine, events: seq<Event>)
    requires Valid(e) && AdmissibleEvents(events)
    ensures Valid(Run(e, events))
    decreases |events|
  {
    if |events| > 0 {
      StepValid(e, events[0].cmd, events[0].now);
      RunValid(Step(e, events[0].cmd, events[0].now), events[1..]);
    }
  }

  // -------------------------------------------------------------- polling

  /** The polled value depends only on the target and the clock: two running
      engines with the same target tick to the same display and status,
      however they got there. */
  lemma TickOnlyReadsTarget(a: Engine, b: Engine, now: int)
    requires Valid(a) && Valid(b)
    requires a.status == Running && b.status == Running && a.endTime == b.endTime
    ensures Tick(a, now).timeLeft == Tick(b, now).timeLeft
    ensures Tick(a, now).status == Tick(b, now).status
  {
  }

  /** A poll completes the countdown exactly when the ceiling of the
      remaining milliseconds reaches zero. */
  lemma TickCompletesIff(e: Engine, now: int)
    requires Valid(e) && e.status == Running
    ensures Tick(e, now).status == Completed <==> e.endTime.value <= now
    ensures Tick(e, now).status == Completed ==> Tick(e, now).timeLeft == 0 && Tick(e, now).endTime == None
    ensures Tick(e, now).status == Completed ==> (Tick(e, now).isRinging <==> e.ringtone != Silent)
    ensures Tick(e, now).status == Completed && e.ringtone != Silent ==>
      && Tick(e, now).played == e.played + [e.ringtone]
      && Tick(e, now).alarm == Some(ArmedAlarm(e.ringtone, TonePeriod(e.ringtone)))
    ensures Tick(e, now).status == Completed && e.ringtone == Silent ==> Tick(e, now).played == e.played
    ensures Tick(e, now).status != Completed ==> Tick(e, now).status == Running && Tick(e, now).endTime == e.endTime
  {
    Ceil.CeilDivPositive(e.endTime.value - now, 1000);
  }

  /** The display never goes up as the clock advances. */
  lemma TickMonotone(e: Engine, t1: int, t2: int)
    requires t1 <= t2
    ensures Tick(e, t2).timeLeft <= Tick(e, t1).timeLeft
  {
    if e.status == Running && HasTarget(e) {
      Ceil.CeilDivMonotone(e.endTime.value - t2, e.endTime.value - t1, 1000);
    }
  }

  /** Drift freedom: an intermediate poll changes nothing a later poll would
      not compute on its own. */
  lemma TickTwice(e: Engine, t1: int, t2: int)
    requires t1 <= t2
    ensures Tick(Tick(e, t1), t2) == Tick(e, t2)
  {
    if e.status == Running && HasTarget(e) {
      Ceil.CeilDivMonotone(e.endTime.value - t2, e.endTime.value - t1, 1000);
    }
  }

  /** Polls at non-decreasing clock readings. */
  predicate NonDecreasing(times: seq<int>) {
    forall i, j :: 0 <= i <= j < |times| ==> times[i] <= times[j]
  }

  function Polls(times: seq<int>): (events: seq<Event>)
    ensures |events| == |times|
    ensures forall i :: 0 <= i < |times| ==> events[i] == Event(TickCmd, times[i])
  {
    if |times| == 0 then [] else [Event(TickCmd, times[0])] + Polls(times[1..])
  }

  /** Drift freedom for a whole run of polls: however many polls ran, and
      whenever, the state equals one poll at the last reading. */
  lemma {:induction false} PollsCollapse(e: Engine, times: seq<int>)
    requires |times| > 0 && NonDecreasing(times)
    ensures Run(e, Polls(times)) == Tick(e, times[|times| - 1])
    decreases |times|
  {
    var ev := Polls(times);
    if |times| > 1 {
      assert ev[1..] == Polls(times[1..]);
      PollsCollapse(Tick(e, times[0]), times[1..]);
      TickTwice(e, times[0], times[|times| - 1]);
    } else {
      assert ev[1..] == [];
    }
  }

  // ------------------------------------------------------ start and pause

  /** `start` then `pause` at the same instant leaves a non-zero display
      unchanged; an exhausted display is reloaded from the duration. */
  lemma StartThenPause(e: Engine, now: int)
    requires Valid(e) && e.status != Running && now > 0
    ensures Pause(Start(e, now), now).status == Paused
    ensures Pause(Start(e, now), now).timeLeft == (if e.timeLeft > 0 then e.timeLeft else e.duration)
    ensures !Pause(Start(e, now), now).isRinging
    ensures Pause(Start(e, now), now).duration == e.duration
  {
    var s := Start(e, now);
    Ceil.CeilDivShift(0, s.timeLeft, 1000);
    assert SecondsUntil(s.endTime.value, now) == s.timeLeft;
  }

  /** A countdown started with `n > 0` seconds completes when polled `n`
      seconds later, and rings unless the ringtone is silent. */
  lemma StartedCountdownCompletes(e: Engine, now: int)
    requires Valid(e) && e.status != Running && e.timeLeft > 0 && now > 0
    ensures Tick(Start(e, now), now + e.timeLeft * 1000).status == Completed
    ensures Tick(Start(e, now), now + e.timeLeft * 1000).timeLeft == 0
    ensures Tick(Start(e, now), now + e.timeLeft * 1000).isRinging <==> e.ringtone != Silent
  {
    TickCompletesIff(Start(e, now), now + e.timeLeft * 1000);
  }

  /** One millisecond earlier the same countdown still shows one second. */
  lemma StartedCountdownNotEarly(e: Engine, now: int)
    requires Valid(e) && e.status != Running && e.timeLeft > 0 && now > 0
    ensures Tick(Start(e, now), now + e.timeLeft * 1000 - 1).status == Running
    ensures Tick(Start(e, now), now + e.timeLeft * 1000 - 1).timeLeft == 1
  {
    var s := Start(e, now);
    var t := now + e.timeLeft * 1000 - 1;
    assert s.endTime.value - t == 1;
    Ceil.CeilDivUnique(1, 1000, 1);
  }

  /** `start` on a running engine changes nothing. */
  lemma StartWhileRunning(e: Engine, now: int)
    requires Valid(e) && e.status == Running
    ensures Start(e, now) == e
  {
  }

  /** Adjusting a running countdown by more than it has left forces completion at once. */
  lemma AdjustPastZeroCompletes(e: Engine, now: int, seconds: int)
    requires Valid(e) && e.status != Running && e.timeLeft > 0 && now > 0
    requires e.timeLeft + seconds <= 0
    ensures Adjust(Start(e, now), seconds, now).status == Completed
    ensures Adjust(Start(e, now), seconds, now).timeLeft == 0
    ensures Adjust(Start(e, now), seconds, now).endTime == None
    ensures Adjust(Start(e, now), seconds, now).isRinging <==> e.ringtone != Silent
  {
    var s := Start(e, now);
    var end := s.endTime.value + seconds * 1000;
    assert end - now == (e.timeLeft + seconds) * 1000;
    Ceil.CeilDivPositive(end - now, 1000);
  }

  /** Adjusting a stopped engine moves display and duration by the same
      amount, each floored at zero, and touches nothing else. */
  lemma AdjustStopped(e: Engine, seconds: int, now: int)
    requires Valid(e) && e.status != Running
    ensures Adjust(e, seconds, now) == e.(timeLeft := Max0(e.timeLeft + seconds), duration := Max0(e.duration + seconds))
  {
  }

  // ---------------------------------------------------------------- reset

  /** `reset` from any state returns to the configured duration, idle and silent. */
  lemma ResetValid(e: Engine)
    requires e.duration >= 0
    ensures Valid(Reset(e))
    ensures Reset(e).timeLeft == e.duration && Reset(e).status == Idle && !Reset(e).isRinging
  {
  }

  /** `setTime(n)` already resets: a following `reset` changes nothing. */
  lemma SetTimeThenReset(e: Engine, n: int)
    ensures Reset(SetTime(e, n)) == SetTime(e, n)
  {
  }

  // ---------------------------------------------------------------- alarm

  /** `stopAlarm` is idempotent. */
  lemma StopAlarmIdempotent(e: Engine)
    ensures StopAlarm(StopAlarm(e)) == StopAlarm(e)
  {
  }

  /** The ringing alarm keeps playing the tone it was started with, even after
      the ringtone setting changes. */
  lemma AlarmToneLocked(e: Engine, t: Ringtone)
    requires Valid(e) && e.isRinging
    ensures AlarmRepeat(SetRingtone(e, t)).played == e.played + [e.alarm.value.tone]
    ensures AlarmRepeat(SetRingtone(e, t)).isRinging
  {
  }

  /** A silent engine that is not ringing never starts ringing, whatever
      happens, as long as the ringtone is not changed. */
  lemma {:induction false} SilentNeverRings(e: Engine, events: seq<Event>)
    requires Valid(e) && e.ringtone == Silent && !e.isRinging
    requires AdmissibleEvents(events)
    requires forall i :: 0 <= i < |events| ==> !events[i].cmd.SetRingtoneCmd?
    ensures !Run(e, events).isRinging
    ensures Run(e, events).played == e.played + PreviewedTones(events)
    decreases |events|
  {
    if |events| > 0 {
      var e1 := Step(e, events[0].cmd, events[0].now);
      StepValid(e, events[0].cmd, events[0].now);
      SilentNeverRings(e1, events[1..]);
      assert PreviewedTones(events) == PreviewedTones(events[..1]) + PreviewedTones(events[1..]) by {
        assert events == events[..1] + events[1..];
        PreviewedTonesAppend(events[..1], events[1..]);
      }
    }
  }

  /** The tones played by the previews among the events. */
  function PreviewedTones(events: seq<Event>): seq<Ringtone>
    decreases |events|
  {
    if |events| == 0 then []
    else
      var rest := PreviewedTones(events[1..]);
      match events[0].cmd
      case PreviewCmd(t) => if t == Silent then rest else [t] + rest
      case _ => rest
  }

  lemma {:induction false} PreviewedTonesAppend(a: seq<Event>, b: seq<Event>)
    ensures PreviewedTones(a + b) == PreviewedTones(a) + PreviewedTones(b)
    decreases |a|
  {
    if |a| > 0 {
      assert (a + b)[0] == a[0];
      assert (a + b)[1..] == a[1..] + b;
      PreviewedTonesAppend(a[1..], b);
    } else {
      assert a + b == b;
    }
  }
}

=== FILE: timer_section.dfy ===
/** components/TimerSection.tsx: how one timer panel drives its engine.
    Rendering is left out; what remains is the dispatch of the main button,
    the settings callbacks, the quick adjust buttons and the derived display
    values (progress fraction and status colour). */
module TimerSection {
  import opened TimerTypes
  import opened Timer
  import TimerLemmas
  import SettingsModal
  import Ceil

  /** The colour class of the digits. */
  datatype StatusColor = Red | Amber | White

  /** `handleMainAction`: acknowledge a ringing alarm, else toggle run/pause. */
  function MainAction(e: Engine, now: int): (r: Engine)
    ensures r.duration == e.duration && r.ringtone == e.ringtone && r.played == e.played
    ensures e.isRinging ==> !r.isRinging && r.status == e.status && r.timeLeft == e.timeLeft
    ensures e.isRinging ==> r.endTime == e.endTime && r.alarm.None?
    ensures !e.isRinging && e.status == Running ==> r.status == Paused
    ensures !e.isRinging && e.status == Running && HasTarget(e) ==>
      r.timeLeft == Max0(SecondsUntil(e.endTime.value, now)) && r.endTime.None?
    ensures !e.isRinging && e.status == Running && !HasTarget(e) ==>
      r.timeLeft == e.timeLeft && r.endTime == e.endTime
    ensures !e.isRinging && e.status != Running ==>
      && r.status == Running
      && r.timeLeft == (if e.timeLeft <= 0 then e.duration else e.timeLeft)
      && r.endTime.Some? && r.endTime.value == now + r.timeLeft * 1000
  {
    if e.isRinging then StopAlarm(e)
    else if e.status == Running then Pause(e, now)
    else Start(e, now)
  }

  /** `handleSettingsSave`: reconfigure, then take the chosen ringtone. */
  function SettingsSave(e: Engine, newSeconds: int, newRingtone: Ringtone): (r: Engine)
    ensures r.status == Idle && r.duration == newSeconds && r.timeLeft == newSeconds
    ensures r.ringtone == newRingtone && !r.isRinging && r.endTime.None? && r.alarm.None?
    ensures r.played == e.played
  {
    SetRingtone(SetTime(e, newSeconds), newRingtone)
  }

  /** The dialog's preview callback: the engine takes the ringtone at once,
      then plays it once. */
  function PreviewFromDialog(e: Engine, t: Ringtone): (r: Engine)
    ensures r.ringtone == t
    ensures r.status == e.status && r.timeLeft == e.timeLeft && r.duration == e.duration
    ensures r.isRinging == e.isRinging && r.endTime == e.endTime && r.alarm == e.alarm
    ensures r.played == (if t == Silent then e.played else e.played + [t])
  {
    PreviewRingtone(SetRingtone(e, t), t)
  }

  /** The quick buttons: one minute off or on, in every state. */
  function QuickMinus(e: Engine, now: int): (r: Engine)
    ensures r.duration == Max0(e.duration - 60) && r.ringtone == e.ringtone
    ensures e.status != Running ==> r.timeLeft == Max0(e.timeLeft - 60) && r.status == e.status
    ensures e.status == Running && HasTarget(e) && SecondsUntil(e.endTime.value, now) > 60 ==>
      && r.status == Running && r.timeLeft == SecondsUntil(e.endTime.value, now) - 60
      && r.endTime.Some? && r.endTime.value == e.endTime.value - 60000
    ensures e.status == Running && HasTarget(e) && SecondsUntil(e.endTime.value, now) <= 60 ==>
      && r.status == Completed && r.timeLeft == 0 && r.endTime.None?
      && (r.isRinging <==> e.isRinging || e.ringtone != Silent)
  {
    if e.endTime.Some? then
      Ceil.CeilDivShift(e.endTime.value - now, -60, 1000);
      Adjust(e, -60, now)
    else
      Adjust(e, -60, now)
  }

  function QuickPlus(e: Engine, now: int): (r: Engine)
    ensures r.duration == Max0(e.duration + 60) && r.ringtone == e.ringtone
    ensures e.status != Running ==> r.timeLeft == Max0(e.timeLeft + 60) && r.status == e.status
    ensures e.status == Running && HasTarget(e) && SecondsUntil(e.endTime.value, now) > 0 ==>
      && r.status == Running && r.timeLeft == SecondsUntil(e.endTime.value, now) + 60
      && r.endTime.Some? && r.endTime.value == e.endTime.value + 60000
  {
    if e.endTime.Some? then
      Ceil.CeilDivShift(e.endTime.value - now, 60, 1000);
      Adjust(e, 60, now)
    else
      Adjust(e, 60, now)
  }

  /** `safeDuration`: the progress divisor, never zero. */
  function SafeDuration(duration: int): (d: int)
    ensures d >= 1
    ensures duration > 0 ==> d == duration
  {
    if duration > 0 then duration else 1
  }

  /** The share of the ring still drawn: `timeLeft / safeDuration` clamped to [0, 1]. */
  function ProgressFraction(timeLeft: int, duration: int): (p: real)
    ensures 0.0 <= p <= 1.0
    ensures duration > 0 && 0 <= timeLeft <= duration ==> p * duration as real == timeLeft as real
  {
    var ratio := timeLeft as real / SafeDuration(duration) as real;
    if ratio < 0.0 then 0.0 else if ratio > 1.0 then 1.0 else ratio
  }

  /** `getStatusColor`. */
  function StatusColorOf(status: Status, timeLeft: int): (c: StatusColor)
    ensures c == Red <==> status == Completed
    ensures c == Amber <==> status == Running && timeLeft < 60
  {
    if status == Completed then Red
    else if timeLeft < 60 && status == Running then Amber
    else White
  }

  // ----------------------------------------------------------- properties

  /** The main button on a ringing engine only silences it: the countdown
      stays completed. */
  lemma MainActionSilences(e: Engine, now: int)
    requires Valid(e) && e.isRinging
    ensures MainAction(e, now).status == Completed
    ensures !MainAction(e, now).isRinging
    ensures MainAction(e, now).timeLeft == e.timeLeft
    ensures Valid(MainAction(e, now))
  {
  }

  /** Two presses of the main button at the same instant on a stopped,
      silent engine return it paused with its display (reloaded when it was
      exhausted). */
  lemma MainActionTwice(e: Engine, now: int)
    requires Valid(e) && !e.isRinging && e.status != Running && now > 0
    ensures MainAction(MainAction(e, now), now).status == Paused
    ensures MainAction(MainAction(e, now), now).timeLeft == (if e.timeLeft > 0 then e.timeLeft else e.duration)
  {
    TimerLemmas.StartThenPause(e, now);
  }

  /** Saving the settings leaves a valid idle engine showing the new duration. */
  lemma SettingsSaveValid(e: Engine, newSeconds: int, newRingtone: Ringtone)
    requires newSeconds >= 0
    ensures Valid(SettingsSave(e, newSeconds, newRingtone))
  {
  }

  /** Minus then plus restores the duration when it is at least a minute,
      whatever the state and clock; a stopped engine also gets its display back. */
  lemma QuickMinusPlus(e: Engine, now1: int, now2: int)
    requires Valid(e) && e.duration >= 60
    ensures QuickPlus(QuickMinus(e, now1), now2).duration == e.duration
    ensures e.status != Running && e.timeLeft >= 60 ==> QuickPlus(QuickMinus(e, now1), now2) == e
  {
  }

  // ------------------------------------------------- the settings dialog

  /** Choosing a ringtone in the open dialog, as the components are wired:
      the dialog records and forwards the ringtone, the preview callback
      changes the engine's ringtone, and because the dialog's open effect
      depends on the engine's duration and ringtone, it runs again and
      reloads the dialog from the engine, discarding unsaved minutes. A
      preview never changes the duration, so only the ringtone can trigger it. */
  function PickRingtoneAsWritten(e: Engine, dlg: SettingsModal.Dialog, t: Ringtone): (r: (Engine, SettingsModal.Dialog))
    ensures r.0 == PreviewFromDialog(e, t) && r.1.selected == t
    ensures t != e.ringtone ==> r.1 == SettingsModal.Open(e.duration, t)
  {
    var sel := SettingsModal.SelectRingtone(dlg, t);
    var e' := PreviewFromDialog(e, sel.previewed);
    if e'.ringtone != e.ringtone then
      (e', SettingsModal.Open(e'.duration, e'.ringtone))
    else (e', sel.dialog)
  }

  /** The counterexample: with a 15-minute timer, choosing the 10-minute
      preset and then a different ringtone saves 15 minutes, not 10. */
  lemma PickRingtoneAsWrittenLosesPreset()
    ensures var e := Init(900);
      var dlg := SettingsModal.SelectPreset(SettingsModal.Open(e.duration, e.ringtone), 2);
      var picked := PickRingtoneAsWritten(e, dlg, Alarm);
      && dlg.minutes == 10
      && SettingsModal.Save(picked.1).seconds == 900
  {
    var e := Init(900);
    Ceil.CeilDivUnique(900, 60, 15);
    var picked := PickRingtoneAsWritten(e, SettingsModal.SelectPreset(SettingsModal.Open(e.duration, e.ringtone), 2), Alarm);
    assert picked.1.minutes == 15;
  }

  /** Choosing a ringtone as evidently intended: the engine previews it and
      the dialog keeps the minutes the user chose. */
  function PickRingtone(e: Engine, dlg: SettingsModal.Dialog, t: Ringtone): (r: (Engine, SettingsModal.Dialog))
    ensures r.0 == PreviewFromDialog(e, t)
    ensures r.1 == dlg.(selected := t)
  {
    var sel := SettingsModal.SelectRingtone(dlg, t);
    (PreviewFromDialog(e, sel.previewed), sel.dialog)
  }

  /** A whole dialog session: open, choose a preset, choose a ringtone, save,
      with the corrected ringtone handling (not the source's wiring, which
      resets the minutes; see `PickRingtoneAsWritten`). The engine ends idle
      with the preset duration and the chosen ringtone. */
  function SettingsSession(e: Engine, preset: nat, t: Ringtone): (r: Engine)
    requires preset < |SettingsModal.PresetTimes|
  {
    var dlg := SettingsModal.SelectPreset(SettingsModal.Open(e.duration, e.ringtone), preset);
    var picked := PickRingtone(e, dlg, t);
    var saved := SettingsModal.Save(picked.1);
    SettingsSave(picked.0, saved.seconds, saved.tone)
  }

  lemma SettingsSessionApplies(e: Engine, preset: nat, t: Ringtone)
    requires preset < |SettingsModal.PresetTimes|
    ensures var r := SettingsSession(e, preset, t);
      && Valid(r)
      && r.status == Idle
      && r.duration == r.timeLeft == SettingsModal.PresetTimes[preset] * 60
      && r.ringtone == t
  {
    SettingsModal.PresetsInRange();
  }
}

=== FILE: timer_types.dfy ===
/** The two enumerations the engine is built from (types.ts). */
module TimerTypes {

  /** The four states of a countdown timer. */
  datatype Status = Idle | Running | Paused | Completed

  /** The end-of-countdown signal; `Silent` is the source's 'none'. */
  datatype Ringtone = Bell | Alarm | Digital | Silent
}

=== FILE: wrappers.dfy ===
/** A minimal Option type: the model's stand-in for the source's nullable refs. */
module Wrappers {

  datatype Option<+T> = None | Some(value: T)
}
